=== FILE: README.md ===
# A copying garbage collector, modelled and proved in Dafny

`main.cpp` is a small stop-the-world copying collector. Objects are
bump-allocated from 4096-byte chunks, each with a header. The header holds
the object's byte size and an odd-tagged count word `(refCount << 1) | 1`,
and `refCount` reference fields follow it. Programs register their root
slots on a LIFO stack (`stackRef` / `referencesStack`). `gcCollect` opens a
fresh arena and relocates every root slot in stack order with the
recursive `gcMove`, which:

- leaves a null slot alone;
- redirects a slot whose target was already copied to the address written
  over that target's header;
- otherwise copies the object into the new arena, overwrites the
  original's header with the copy's address, and relocates the copy's
  fields.

The old chunks are then freed. A small binary search tree (`stAdd`,
`stFind`, `stCut`) is the client.

The model is functional. A heap is a map from addresses to objects.
Addresses are (chunk number, offset) pairs, and `new gcChunk` always yields
a chunk number not used before. The header is a tagged datatype
`Live(size, countWord) | Forwarded(target)`. While a collection runs, the
state (`Relocation.GcState`) holds four things:

- the old objects as they were when it began;
- the forwarding addresses written over their headers so far;
- the copies made so far;
- the new arena.

`OldHeader` gives the header `gcMove` reads. Relocation returns the new
state together with the value the relocated slot then holds. It terminates
because the set of old objects not yet forwarded shrinks before every
recursive call.

Modules, one per file: `Wrappers` (Option), `HeaderWord` (the 32-bit count
word), `Arena` (chunks and `gcRawAlloc`), `Objects` (headers, objects, heap,
`gcAlloc`, `gcInit`), `Relocation` (`gcMove`), `Collection` (`gcCollect` and
its theorems), `RootStack` (`stackRef`), `SearchTree` (the client).

The main results:

- `Collection.CollectReachable`: exactly the objects reachable from the
  roots are copied. They form the least set that holds every root and is
  closed under references.
- `Collection.CollectIsomorphic`: each surviving object is copied exactly
  once. The new heap is the reachable old graph with every reference
  renamed, and headers and data are unchanged.
- `Collection.Collect`: every root ends up holding the new address of its
  old target. The new heap is again well-formed, and it lies wholly in
  chunks that come after the old ones.
- `SearchTree.FindCollect`: a tree search made after a collection finds
  the copy of what the same search found before.
- `SearchTree.FindComplete`: on a tree ordered the way `stAdd` files keys,
  the search finds a node exactly when the tree holds the key.

Each chunk carries a 128-byte overdraft beyond its nominal capacity. The
overdraft looks meant to absorb alignment padding past the nominal
capacity, but the code never lets that happen:

- a request starts a new chunk unless it ends at or before offset 4096;
- 4096 is a multiple of 4, so rounding the offset up never passes 4096.

`Arena.RawAlloc` states that the offset stays within `CHUNK_SIZE`, so the
overdraft bytes are never used. The model follows the code.

## Model

| member | source | states |
|---|---|---|
| HeaderWord.Shl1 | main.cpp:57 | `refCount << 1` on a 32-bit int: always even, and twice the argument when that fits in 32 bits |
| HeaderWord.Shr1 | main.cpp:99 | `w >> 1` on a signed int is an arithmetic shift: the result r satisfies 2r ≤ w < 2r + 2 |
| HeaderWord.EncodeCount | main.cpp:57 | the count word `(refCount << 1) \| 1` is always odd, so `isPointer` never takes it for an address |
| HeaderWord.Or1 | main.cpp:57 | `x \| 1` sets the low bit and keeps every other bit: the result is odd, and shifting it right by one gives the same as shifting x |
| HeaderWord.IsPointerWord | main.cpp:80-82 | the word is read as an address exactly when its low bit is clear, that is, when shifting right and back gives the same word and setting the low bit changes it |
| HeaderWord.FieldCount | main.cpp:99-100 | the loop bound `w >> 1` as an iteration count: n with 2n ≤ w < 2n + 2 for w ≥ 2, and no iterations for w < 2 |
| HeaderWord.DecodeEncode | main.cpp:56-57 | shifting the stamped count word right by one gives back `refCount` exactly when -2^30 ≤ refCount < 2^30 (both directions) |
| HeaderWord.FieldCountEncode | main.cpp:99-101 | for 0 ≤ refCount < 2^30 the relocation loop visits exactly `refCount` fields; for -2^30 ≤ refCount < 0 it visits none |
| Objects.IsPointer | main.cpp:80-82 | a forwarded header is read as an address, and a live header whose count word has the low bit set is not |
| Objects.StampedHeaderIsLive | main.cpp:80-81 | a freshly stamped header is never mistaken for a forwarding address |
| Arena.Init | main.cpp:71-76 | `gcInit` leaves a valid arena of exactly one chunk, numbered `first`, which is the current chunk, with the offset at 0 |
| Objects.InitHeap | main.cpp:71-76 | the initial heap is empty and well-formed, and its first allocation of any size that fits starts at offset 0 of its only chunk |
| Arena.AlignUp | main.cpp:59-60 | rounding up gives a multiple of 4 that is at least the offset and less than offset + 4 |
| Arena.RawAlloc | main.cpp:45-62 | a request over `CHUNK_SIZE` fails and leaves the arena unchanged, and one of exactly `CHUNK_SIZE` succeeds. On success a new chunk is opened (count + 1, offset 0) exactly when offset + size > `CHUNK_SIZE`, otherwise the object starts at the current offset. The object ends at or before `CHUNK_SIZE`, and the new offset is aligned, at least the object's end, at most `CHUNK_SIZE` and less than the end + 4 |
| Arena.RawAllocKeepsOk | main.cpp:58-60 | allocation keeps the offset aligned and within nominal capacity, with at least one chunk |
| Arena.RawAllocAdvances | main.cpp:48-58 | the bump pointer only moves forward: old positions stay behind it, a new object starts at or after it, and a non-empty object ends behind it |
| Arena.SuccessiveDisjoint | main.cpp:55-60 | two successive allocations in the same chunk do not overlap, and neither reaches the overdraft bytes |
| Objects.Alloc | main.cpp:64-68 | `gcAlloc` fails exactly for oversized requests, leaving the heap unchanged. On success it adds one object with header `(size, (refCount<<1)\|1)` at a fresh address, which is the address `gcRawAlloc` returns, and the arena advances as `gcRawAlloc` advances it |
| Objects.RawAllocFresh | main.cpp:48-58 | in a well-formed heap, the address a successful allocation returns belongs to no object |
| Objects.AllocKeepsOk | main.cpp:64-68 | allocating an object that declares its field count, with fields pointing into the heap, keeps the heap well-formed |
| Relocation.OldHeader | main.cpp:86-88 | in a sound state the header `gcMove` reads is an address exactly when the object was already forwarded, and that address is the forwarding target; otherwise it is the object's original header |
| Relocation.CopyStep | main.cpp:91-97 | one allocation of the object's recorded size at a brand-new address. The copy is the whole original, so its header equals the original's (the re-stamp at line 91 is overwritten by the copy at line 92). The original is forwarded to the copy, and that object leaves the not-yet-forwarded set |
| Relocation.CopyStepSound | main.cpp:91-97 | copying keeps the new arena valid and every copy behind its bump pointer, and changes nothing already copied or forwarded |
| Relocation.CopyStepTidy | main.cpp:97 | after the step the forwarding is still one-to-one, and its targets are still exactly the copies |
| Relocation.Move | main.cpp:84-102 | a null slot changes nothing. A forwarded target yields its forwarding address and allocates nothing. A live target is copied by one allocation of its recorded size to an address not used before. In every case the slot ends up holding the forwarding address of its old target, and nothing already forwarded or copied changes |
| Relocation.MoveSlots | main.cpp:100-101 | relocating slots in order leaves each one holding the forwarding address of its old target. The same loop models the root loop at lines 109-110 |
| Relocation.SlotsDone | main.cpp:100-101 | a relocated slot stays relocated while later slots are processed |
| Relocation.StoreFields | main.cpp:94-101 | writing the relocated field values into the copy changes no other object, no forwarding address and not the arena |
| Relocation.EvolvesShrinks | main.cpp:97 | later steps never un-forward an object, so the set of not-yet-forwarded objects only shrinks |
| Relocation.MoveCopies | main.cpp:91-101 | relocation keeps the forwarding one-to-one and onto the copies. Each newly forwarded object has a copy that did not exist before and that, on return, has the original's header and data, with every field holding the new address of the old field's target |
| Relocation.SlotsCopies | main.cpp:100-101 | the same for a run of slots |
| Relocation.CopyCaseFresh | main.cpp:91-101 | the copy made in the copy case is complete once its fields are stored, and so is every copy made while relocating them |
| Relocation.MoveWithin | main.cpp:84-102 | relocation forwards only objects inside any closed set of old objects that holds the slot's target and everything forwarded before |
| Relocation.SlotsWithin | main.cpp:100-101 | the same for a run of slots |
| Collection.Start | main.cpp:105-108 | collection starts with nothing forwarded or copied, in one empty chunk numbered after every old chunk |
| Collection.Relocate | main.cpp:109-110 | relocating the roots in stack order leaves each root holding the new address of its old target |
| Collection.Collect | main.cpp:104-119 | after collection the heap is the new arena's copies and the old chunks are dropped. The world is well-formed again, each root holds the new address of its old target, and no new object is where an old one was |
| Collection.RelocateTidy | main.cpp:104-110 | the forwarding left by collection is one-to-one and onto the copies, and every copy is complete |
| Collection.NewHeapOk | main.cpp:109-118 | the copies form a well-formed heap whose fields and roots refer only to copies |
| Collection.CollectReachable | main.cpp:104-119 | the copied objects hold every root and are closed under references, and they lie inside every other set with both properties. So exactly the reachable objects survive |
| Collection.CollectIsomorphic | main.cpp:104-119 | the forwarding is one-to-one, its targets are exactly the new heap's objects, and each copy is its original with every reference renamed and header and data unchanged |
| Collection.CollectKeepsSharing | main.cpp:84-90 | two roots refer to the same object after collection if and only if they did before |
| RootStack.Acquire | main.cpp:22-25 | a new `stackRef` pushes one slot holding null, its handle is that slot, and the slots below are unchanged |
| RootStack.Release | main.cpp:27-29 | destroying a `stackRef` pops exactly the top slot and leaves the others unchanged |
| RootStack.Store | main.cpp:21 | assigning through a handle changes that slot and no other |
| RootStack.ReleaseAcquire | main.cpp:22-29 | a matched construct/destroy leaves the registry as it was, whatever was stored in the slot in between |
| RootStack.RegistryKeepsOk | main.cpp:22-29 | pushing, popping and storing a heap reference keep the world well-formed |
| RootStack.SlotsNullLast | main.cpp:85-86 | relocating a trailing null slot changes nothing and leaves it null |
| RootStack.CollectFreshRoot | main.cpp:109-110 | collecting with a fresh, still-null root gives the same result as without it, plus that null root |
| SearchTree.Set | main.cpp:133 | writing through a slot sets exactly that slot and changes no object's header, data or field count |
| SearchTree.SetKeepsOk | main.cpp:173 | storing null or a heap reference in a slot keeps the world well-formed |
| SearchTree.Child | main.cpp:141-144 | the comparison `stAdd` makes, and `stFind` and `stCut` repeat: a search for a key larger than the node's descends into field 0 (`left`), otherwise into field 1 (`right`), always one of the node's two reference fields |
| SearchTree.Find | main.cpp:149-156 | a search returns null or a node holding the key sought |
| SearchTree.EndSlot | main.cpp:128-143 | the slot where the search from a slot stops, the `target` of the innermost `stAdd` / `stCut` call, holds exactly what `Find` returns |
| SearchTree.Plant | main.cpp:131-137 | a new node with null children and the given key is stored in the null slot, and no other slot changes. It is the only object added, at the fresh address `gcRawAlloc` returns for one node-sized request, and the arena advances by exactly that request |
| SearchTree.Add | main.cpp:128-143 | insertion keeps the world well-formed and changes no slot that held a reference. It changes nothing when the search finds the key; otherwise the result is exactly a new node planted in the null slot where the search ends |
| SearchTree.Cut | main.cpp:171-180 | cutting keeps the world well-formed and removes no object. The result is exactly the slot where the search ends set to null, so each slot keeps its value or becomes null |
| SearchTree.AddFinds | main.cpp:130-156 | after inserting a key, searching for it from the same slot finds a node holding it |
| SearchTree.CutRemoves | main.cpp:149-180 | after cutting a key, searching for it from the same slot finds nothing |
| SearchTree.HoldsInRange | main.cpp:139-142 | in a tree ordered the way `stAdd` files keys, every key it holds lies strictly between the tree's bounds |
| SearchTree.FindComplete | main.cpp:139-153 | on such an ordered tree the search always ends, and it finds a node exactly when some node of the tree holds the key (both directions) |
| SearchTree.FindImage | main.cpp:149-156 | a search commutes with renaming the heap into an isomorphic image |
| SearchTree.FindCollect | main.cpp:149-156 | after collection, searching from a root finds the new address of the node the same search found before, or null if it found null |

## Left out

- Byte-level header aliasing (main.cpp:9-14, 80-81): the forwarding pointer overlays both header ints, so which bits `isPointer` tests depends on pointer width and endianness. The header is modelled as a tagged datatype, and `IsPointer` tests the tag.
- `memcpy` and `reinterpret_cast` pointer arithmetic (main.cpp:55, 66, 92, 94): an object is a header, a sequence of reference fields and a sequence of other data, and copying copies the object. The model does not check that `sizeof(T)` covers the header and `refCount` pointer fields.
- Relocation.StoreFields: the source writes each relocated field into the copy as it goes, while the model relocates the copy's field values as a sequence and stores them once. The final state is the same, because no step reads a copy's fields except through that copy's own loop.
- Host memory management (`new gcChunk`, `delete[]` at main.cpp:50, 105, 112-118): each new chunk gets a number not used before. Freeing the old chunks is modelled as dropping the old heap map. The mismatch between `delete[]` and scalar `new` is not modelled.
- Objects.Alloc: the source leaves an object's fields uninitialised, and its callers fill them in at once. The model takes those initial values as parameters.
- Arena.RawAlloc: sizes are natural numbers (`sizeof`), so the source's behaviour for a negative `int` size is not modelled. `Objects.Alloc` callers pass at least the 8-byte header, since every allocatable type starts with `gcHeader`.
- Native recursion depth and stack overflow in `gcMove` and the tree operations: recursion is unbounded, and only termination is proved.
- SearchTree.Find, SearchTree.Add, SearchTree.Cut: these take a ghost depth bound and require the search for the key to end within it. The source recursion diverges when the search path cycles. The bound only states that the search ends and does not limit any real behaviour.
- SearchTree.Add: the model does not prove that insertion keeps a tree ordered. `FindComplete` takes the order as a hypothesis. An insertion below a node that is reachable along two paths would need a shape invariant (no sharing) that the source does not keep.
- Objects.IsPointer: a live header whose count word is even is read as live, whereas `isPointer` would read it as an address. `gcRawAlloc` never stamps such a word (`StampedHeaderIsLive`), and every live object of a well-formed heap (`Objects.LiveOk`) has an odd count word, so `IsPointer` agrees with `isPointer` on every header such a heap holds.
- SearchTree.NODE_SIZE is 32 (`sizeof(searchTree)` on a 64-bit target). The proofs hold for any size from 8 to 4096.
- Console output (`stPrint`, main.cpp:159-168, and the output in `main`): not modelled. The scripted run in `main` is not replayed. `AddFinds`, `CutRemoves` and `FindCollect` state, for all inputs, what the searches it makes return after insertions, a cut and a collection. That the node it cuts off becomes unreachable and is not copied follows from `CollectReachable` but is not stated for that run.

=== FILE: arena.dfy ===
/**
  The bump arena of `gcRawAlloc` / `gcInit`: a list of chunks of
  `CHUNK_SIZE` usable bytes (plus `OVERDRAFT` spare bytes each), carved
  front to back. A chunk is identified by a number; `new gcChunk` always
  yields a chunk number no earlier chunk had.
*/
module Arena {
  import opened Wrappers

  const CHUNK_SIZE: nat := 4096
  const OVERDRAFT: nat := 128
  const ACTUAL_SIZE: nat := CHUNK_SIZE + OVERDRAFT
  /** Offsets are rounded up to this after every allocation. */
  const ALIGN: nat := 4

  /** A byte position: a chunk number and an offset into that chunk's buffer. */
  datatype Addr = Addr(chunk: nat, offset: nat)

  /**
    The arena globals: the chunks numbered `first .. first + chunkCount - 1`
    (`firstChunk` to `currentChunk`) and `currentOffset` in the last one.
  */
  datatype Arena = Arena(first: nat, chunkCount: nat, offset: nat)

  /** The number of `currentChunk`. */
  function Current(a: Arena): nat
    requires a.chunkCount >= 1
  {
    a.first + a.chunkCount - 1
  }

  predicate Aligned(n: int) {
    n % ALIGN == 0
  }

  /** The state every arena operation keeps: at least one chunk, an aligned offset within nominal capacity. */
  predicate ArenaOk(a: Arena) {
    a.chunkCount >= 1 && a.offset <= CHUNK_SIZE && Aligned(a.offset)
  }

  /** `gcInit`: one fresh, empty chunk, numbered `first`. */
  function Init(first: nat): (a: Arena)
    ensures ArenaOk(a) && Current(a) == first
    ensures a.first == first && a.chunkCount == 1 && a.offset == 0
  {
    Arena(first, 1, 0)
  }

  /** Rounds up to the next multiple of `ALIGN` (`gcRawAlloc`, main.cpp:59-60). */
  function AlignUp(n: nat): (r: nat)
    ensures Aligned(r) && n <= r < n + ALIGN
  {
    if n % ALIGN != 0 then n + ALIGN - n % ALIGN else n
  }

  /** A position strictly behind the bump pointer: everything allocated so far lies there. */
  predicate Before(p: Addr, a: Arena)
    requires a.chunkCount >= 1
  {
    p.chunk < Current(a) || (p.chunk == Current(a) && p.offset < a.offset)
  }

  /** A position in one of the arena's own chunks. */
  predicate InArena(p: Addr, a: Arena)
    requires a.chunkCount >= 1
  {
    a.first <= p.chunk <= Current(a)
  }

  /**
    `gcRawAlloc` without the header stamp: the arena after the request and
    the position handed out, or `None` (and the arena untouched) for a
    request larger than a chunk.
  */
  function RawAlloc(a: Arena, size: nat): (r: (Arena, Option<Addr>))
    requires a.chunkCount >= 1
    ensures r.1.None? <==> size > CHUNK_SIZE
    ensures r.1.None? ==> r.0 == a
    ensures r.0.first == a.first && r.0.chunkCount >= 1
    ensures r.1.Some? ==>
              var at := r.1.value;
              && (a.offset + size > CHUNK_SIZE ==>
                    r.0.chunkCount == a.chunkCount + 1 && at == Addr(Current(a) + 1, 0))
              && (a.offset + size <= CHUNK_SIZE ==>
                    r.0.chunkCount == a.chunkCount && at == Addr(Current(a), a.offset))
              && at.chunk == Current(r.0)
              && at.offset + size <= CHUNK_SIZE
              && Aligned(r.0.offset)
              && at.offset + size <= r.0.offset <= CHUNK_SIZE
              && r.0.offset < at.offset + size + ALIGN
  {
    if size > CHUNK_SIZE then (a, None)
    else
      var placed := if a.offset + size > CHUNK_SIZE then Arena(a.first, a.chunkCount + 1, 0) else a;
      var at := Addr(Current(placed), placed.offset);
      (placed.(offset := AlignUp(placed.offset + size)), Some(at))
  }

  /** Allocation keeps the arena invariant, whatever the request. */
  lemma RawAllocKeepsOk(a: Arena, size: nat)
    requires ArenaOk(a)
    ensures ArenaOk(RawAlloc(a, size).0)
  {
  }

  /**
    The bump pointer only moves forward: what was behind it stays behind it,
    a new object starts at or beyond it, and a non-empty object ends up
    behind it. Hence a new object never starts where an older one does.
  */
  lemma RawAllocAdvances(a: Arena, size: nat, p: Addr)
    requires a.chunkCount >= 1
    requires RawAlloc(a, size).1.Some?
    ensures var (a', at) := RawAlloc(a, size);
            && (Before(p, a) ==> Before(p, a'))
            && !Before(at.value, a)
            && (size > 0 ==> Before(at.value, a'))
            && InArena(at.value, a')
  {
  }

  /**
    Two successive allocations in the same chunk do not overlap, and
    neither reaches into the overdraft bytes of its chunk.
  */
  lemma SuccessiveDisjoint(a: Arena, size1: nat, size2: nat)
    requires a.chunkCount >= 1
    requires RawAlloc(a, size1).1.Some?
    requires RawAlloc(RawAlloc(a, size1).0, size2).1.Some?
    ensures var (a1, at1) := RawAlloc(a, size1);
            var (_, at2) := RawAlloc(a1, size2);
            && (at1.value.chunk == at2.value.chunk ==> at1.value.offset + size1 <= at2.value.offset)
            && at1.value.offset + size1 <= CHUNK_SIZE < ACTUAL_SIZE
            && at2.value.offset + size2 <= CHUNK_SIZE < ACTUAL_SIZE
  {
  }
}

=== FILE: collection.dfy ===
/**
  `gcCollect`: open a fresh arena, relocate every registered root slot in
  stack order, then drop the old chunks. The theorems here are the
  collector's promise: exactly the objects reachable from the roots
  survive, each once, forming a graph isomorphic to the old reachable one,
  and the roots are redirected along that isomorphism.
*/
module Collection {
  import opened Wrappers
  import opened Arena
  import opened Objects
  import opened Relocation

  /** The heap together with the current contents of the registered root slots, bottom of the stack first. */
  datatype World = World(heap: Heap, roots: seq<Option<Addr>>)

  /** Every non-null root lies in `S`. */
  ghost predicate RootsIn(roots: seq<Option<Addr>>, S: set<Addr>) {
    forall i :: 0 <= i < |roots| && roots[i].Some? ==> roots[i].value in S
  }

  /** A well-formed heap whose roots are null or refer to its objects. */
  ghost predicate WorldOk(w: World) {
    && HeapOk(w.heap)
    && forall i :: 0 <= i < |w.roots| ==> RefIn(w.roots[i], w.heap.objs)
  }

  /**
    `gcCollect`, main.cpp:105-108: the collector's starting point. Nothing is forwarded or
    copied yet, and the new arena is a single empty chunk that comes after
    every chunk of the old arena.
  */
  function Start(h: Heap): (s: GcState)
    requires HeapOk(h)
    ensures Sound(s) && Tidy(s)
    ensures s.fromSpace == h.objs && s.forwarding == map[] && s.toSpace == map[]
    ensures s.arena.chunkCount == 1 && s.arena.offset == 0
    ensures forall p :: p in h.objs ==> p.chunk < s.arena.first
  {
    GcState(h.objs, map[], map[], Init(h.arena.first + h.arena.chunkCount))
  }

  /** `gcCollect`, main.cpp:109-110: every root slot relocated, bottom of the stack first; the final state and the new root values. */
  function Relocate(w: World): (r: (GcState, seq<Option<Addr>>))
    requires WorldOk(w)
    ensures Sound(r.0) && Evolves(Start(w.heap), r.0)
    ensures |r.1| == |w.roots|
    ensures forall i :: 0 <= i < |w.roots| ==> MapsTo(r.0.forwarding, w.roots[i], r.1[i])
  {
    MoveSlots(Start(w.heap), w.roots)
  }

  /** Where each surviving old object went. */
  ghost function Forwarding(w: World): map<Addr, Addr>
    requires WorldOk(w)
  {
    Relocate(w).0.forwarding
  }

  /**
    `gcCollect`, main.cpp:104-119: the heap after collection is the new arena and the
    copies in it (the old chunks are dropped), and the roots hold the
    relocated values: each root holds the new address of the object it
    referred to. The result is again a well-formed world, so every
    non-null root refers to a copy in the new arena, and no object of the
    new heap sits where an old one did.
  */
  function Collect(w: World): (r: World)
    requires WorldOk(w)
    ensures WorldOk(r)
    ensures r.heap.arena.first == w.heap.arena.first + w.heap.arena.chunkCount
    ensures forall p :: p in r.heap.objs ==> w.heap.arena.first + w.heap.arena.chunkCount <= p.chunk
    ensures forall p :: p in r.heap.objs ==> p !in w.heap.objs
    ensures |r.roots| == |w.roots|
    ensures forall i :: 0 <= i < |w.roots| ==> MapsTo(Forwarding(w), w.roots[i], r.roots[i])
  {
    var (s, roots') := Relocate(w);
    RelocateTidy(w);
    NewHeapOk(w);
    World(Heap(s.toSpace, s.arena), roots')
  }

  /** The final state is tidy, and each forwarded object has a complete copy. */
  lemma RelocateTidy(w: World)
    requires WorldOk(w)
    ensures Tidy(Relocate(w).0) && FreshCopies(Start(w.heap), Relocate(w).0)
  {
    SlotsCopies(Start(w.heap), w.roots);
  }

  /** The copies form a well-formed heap in the new arena, and the new roots refer to copies. */
  lemma NewHeapOk(w: World)
    requires WorldOk(w)
    requires Tidy(Relocate(w).0) && FreshCopies(Start(w.heap), Relocate(w).0)
    ensures var (s, roots') := Relocate(w);
            && HeapOk(Heap(s.toSpace, s.arena))
            && forall i :: 0 <= i < |roots'| ==> RefIn(roots'[i], s.toSpace)
  {
    var (s, roots') := Relocate(w);
    var f := s.forwarding;
    forall p | p in s.toSpace
      ensures FieldsIn(s.toSpace[p].fields, s.toSpace)
    {
      var a :| a in f && f[a] == p;
      assert Complete(s, p, w.heap.objs[a]);
      forall j | 0 <= j < |s.toSpace[p].fields|
        ensures RefIn(s.toSpace[p].fields[j], s.toSpace)
      {
        assert MapsTo(f, w.heap.objs[a].fields[j], s.toSpace[p].fields[j]);
        if w.heap.objs[a].fields[j].Some? {
          assert f[w.heap.objs[a].fields[j].value] in f.Values;
        }
      }
    }
    forall i | 0 <= i < |roots'|
      ensures RefIn(roots'[i], s.toSpace)
    {
      if w.roots[i].Some? {
        assert f[w.roots[i].value] in f.Values;
      }
    }
  }

  /**
    Exactly the reachable objects are copied: the forwarded objects hold
    every root and are closed under references, and they lie inside every
    other set with those two properties, i.e. they form the least such set.
  */
  lemma CollectReachable(w: World)
    requires WorldOk(w)
    ensures Forwarding(w).Keys <= w.heap.objs.Keys
    ensures RootsIn(w.roots, Forwarding(w).Keys) && Closed(w.heap.objs, Forwarding(w).Keys)
    ensures forall S :: RootsIn(w.roots, S) && Closed(w.heap.objs, S) ==> Forwarding(w).Keys <= S
  {
    var s := Relocate(w).0;
    var f := s.forwarding;
    RelocateTidy(w);
    forall i | 0 <= i < |w.roots| && w.roots[i].Some?
      ensures w.roots[i].value in f.Keys
    {
      assert MapsTo(f, w.roots[i], Relocate(w).1[i]);
    }
    forall a, j | a in f.Keys && a in w.heap.objs && 0 <= j < |w.heap.objs[a].fields| && w.heap.objs[a].fields[j].Some?
      ensures w.heap.objs[a].fields[j].value in f.Keys
    {
      assert Complete(s, f[a], w.heap.objs[a]);
      assert MapsTo(f, w.heap.objs[a].fields[j], s.toSpace[f[a]].fields[j]);
    }
    forall S | RootsIn(w.roots, S) && Closed(w.heap.objs, S)
      ensures f.Keys <= S
    {
      SlotsWithin(Start(w.heap), w.roots, S);
    }
  }

  /**
    The new heap is an isomorphic image of the reachable old graph: the
    forwarding is one-to-one, its targets are exactly the new heap's
    objects, and each copy is its original with every reference renamed.
  */
  lemma CollectIsomorphic(w: World)
    requires WorldOk(w)
    ensures Injective(Forwarding(w))
    ensures Collect(w).heap.objs.Keys == Forwarding(w).Values
    ensures forall a :: a in Forwarding(w) ==>
              && a in w.heap.objs
              && Image(Forwarding(w), w.heap.objs[a], Collect(w).heap.objs[Forwarding(w)[a]])
  {
    var s := Relocate(w).0;
    RelocateTidy(w);
    forall a | a in s.forwarding
      ensures a in w.heap.objs && Image(s.forwarding, w.heap.objs[a], s.toSpace[s.forwarding[a]])
    {
      assert Complete(s, s.forwarding[a], w.heap.objs[a]);
    }
  }

  /** Two roots share an object after collection exactly when they shared one before. */
  lemma CollectKeepsSharing(w: World, i: nat, j: nat)
    requires WorldOk(w) && i < |w.roots| && j < |w.roots|
    ensures Collect(w).roots[i] == Collect(w).roots[j] <==> w.roots[i] == w.roots[j]
  {
    CollectIsomorphic(w);
  }
}

=== FILE: header_word.dfy ===
/**
  The second word of an object header, as `gcRawAlloc` stamps it and
  `gcMove` reads it back: a 32-bit `int` holding `(refCount << 1) | 1`.
  The low bit is the tag that `isPointer` tests; the remaining bits are the
  number of reference fields that follow the header.
*/
module HeaderWord {

  const TWO_30: int := 0x4000_0000
  const TWO_31: int := 0x8000_0000
  const TWO_32: int := 0x1_0000_0000

  /** The C `int` of the source: 32-bit two's complement. */
  type Int32 = x: int | -0x8000_0000 <= x < 0x8000_0000

  /** Reduces an unbounded integer to the 32-bit word with the same low 32 bits. */
  function Wrap32(x: int): (r: Int32)
    ensures (r - x) % TWO_32 == 0
    ensures -TWO_31 <= x < TWO_31 ==> r == x
  {
    (x + TWO_31) % TWO_32 - TWO_31
  }

  /** `x << 1` on a 32-bit `int`; the bit shifted out of the top is lost. */
  function Shl1(x: Int32): (r: Int32)
    ensures r % 2 == 0
    ensures -TWO_30 <= x < TWO_30 ==> r == 2 * x
  {
    Wrap32(2 * x)
  }

  /** `x | 1`: sets the low bit and keeps every other bit. */
  function Or1(x: Int32): (r: Int32)
    ensures r % 2 == 1 && Shr1(r) == Shr1(x)
  {
    if x % 2 == 0 then x + 1 else x
  }

  /** `x >> 1` on a signed 32-bit `int`: an arithmetic shift, i.e. rounding toward minus infinity. */
  function Shr1(x: Int32): (r: Int32)
    ensures 2 * r <= x < 2 * r + 2
  {
    x / 2
  }

  /**
    `isPointer`: `(w & 1) == 0`, a header word with a clear low bit holds
    (part of) a forwarding address. Clearing the low bit by shifting out
    and back changes nothing, and setting it changes the word.
  */
  function IsPointerWord(w: Int32): (b: bool)
    ensures b <==> 2 * Shr1(w) == w
    ensures b <==> Or1(w) != w
  {
    w % 2 == 0
  }

  /** The count word `gcRawAlloc` stamps for `refCount` reference fields. */
  function EncodeCount(refCount: Int32): (w: Int32)
    ensures !IsPointerWord(w)
  {
    Or1(Shl1(refCount))
  }

  /**
    The number of field slots `gcMove` relocates for a header holding `w`:
    the loop `for (i = 0; i < (w >> 1); ++i)` runs no times for a negative count.
  */
  function FieldCount(w: Int32): (n: nat)
    ensures w >= 2 ==> 2 * n <= w < 2 * n + 2
    ensures w < 2 ==> n == 0
  {
    if Shr1(w) > 0 then Shr1(w) else 0
  }

  /** Shifting right by one undoes the encoding exactly when the count survives the left shift. */
  lemma DecodeEncode(refCount: Int32)
    ensures Shr1(EncodeCount(refCount)) == refCount <==> -TWO_30 <= refCount < TWO_30
  {
  }

  /** For the counts a type can declare, the loop of `gcMove` visits exactly `refCount` fields. */
  lemma FieldCountEncode(refCount: Int32)
    ensures 0 <= refCount < TWO_30 ==> FieldCount(EncodeCount(refCount)) == refCount
    ensures -TWO_30 <= refCount < 0 ==> FieldCount(EncodeCount(refCount)) == 0
  {
  }
}

=== FILE: objects.dfy ===
/**
  Objects and the heap they live in. Every object starts with a header;
  `refCount` reference fields follow it, then the rest of the object's bytes.
  The header is kept as an explicit tagged value instead of the source's
  union of two `int`s and a pointer.
*/
module Objects {
  import opened Wrappers
  import opened HeaderWord
  import opened Arena

  /** `sizeof(gcHeader)`: every allocatable type begins with one. */
  const HEADER_SIZE: nat := 8

  /**
    A header is either live data (the byte size and the encoded count word)
    or, once the collector has copied the object, the copy's address.
  */
  datatype Header = Live(size: nat, countWord: Int32) | Forwarded(target: Addr)

  /**
    An object: its header, its reference fields in slot order, and the
    non-reference bytes that follow them (for the search tree: the key).
  */
  datatype Obj = Obj(header: Header, fields: seq<Option<Addr>>, data: seq<int>)

  /** The heap: every object by address, and the arena it was carved from. */
  datatype Heap = Heap(objs: map<Addr, Obj>, arena: Arena)

  /**
    `isPointer` on the tagged header. It agrees with the tag bit of the
    word on every forwarded header and on every live one stamped with an
    odd count word, as `gcRawAlloc` stamps them.
  */
  function IsPointer(h: Header): (b: bool)
    ensures h.Forwarded? ==> b
    ensures h.Live? && !IsPointerWord(h.countWord) ==> !b
  {
    h.Forwarded?
  }

  /** The tag `isPointer` reads agrees with the word `gcRawAlloc` stamps: a fresh header is never a pointer. */
  lemma StampedHeaderIsLive(size: nat, refCount: Int32)
    ensures !IsPointer(Live(size, EncodeCount(refCount)))
    ensures !IsPointerWord(Live(size, EncodeCount(refCount)).countWord)
  {
  }

  /** A reference slot's value is null or an object of `m`. */
  predicate RefIn(v: Option<Addr>, m: map<Addr, Obj>) {
    v.Some? ==> v.value in m
  }

  ghost predicate FieldsIn(fs: seq<Option<Addr>>, m: map<Addr, Obj>) {
    forall j :: 0 <= j < |fs| ==> RefIn(fs[j], m)
  }

  /**
    `S` is closed under the heap's references: every field of an object in
    `S` is null or points into `S`. The objects reachable from the roots
    form the least closed set holding every root.
  */
  ghost predicate Closed(m: map<Addr, Obj>, S: set<Addr>) {
    forall a, j :: a in S && a in m && 0 <= j < |m[a].fields| && m[a].fields[j].Some? ==> m[a].fields[j].value in S
  }

  /**
    A live object as allocation leaves it: a count word with the tag bit
    set, as `gcRawAlloc` stamps it, a size that fits in a chunk and holds at
    least the header, and exactly as many fields as its header declares.
  */
  predicate LiveOk(o: Obj) {
    && o.header.Live?
    && !IsPointerWord(o.header.countWord)
    && HEADER_SIZE <= o.header.size <= CHUNK_SIZE
    && |o.fields| == FieldCount(o.header.countWord)
  }

  /** Every object is a well-formed live object whose fields point into the same heap. */
  ghost predicate ObjsOk(m: map<Addr, Obj>) {
    forall p :: p in m ==> LiveOk(m[p]) && FieldsIn(m[p].fields, m)
  }

  /** The heap invariants that hold between collections. */
  ghost predicate HeapOk(h: Heap) {
    && ArenaOk(h.arena)
    && ObjsOk(h.objs)
    && forall p :: p in h.objs ==> InArena(p, h.arena) && Before(p, h.arena)
  }

  /**
    `gcInit`: an empty heap over one fresh chunk numbered `first`, whose
    first allocation of any size that fits lands at the very start of it.
  */
  function InitHeap(first: nat): (h: Heap)
    ensures HeapOk(h) && h.objs == map[] && h.arena.first == first
    ensures forall size :: 0 < size <= CHUNK_SIZE ==> RawAlloc(h.arena, size).1 == Some(Addr(first, 0))
  {
    Heap(map[], Init(first))
  }

  /**
    `gcAlloc`: a bump allocation of `size` bytes stamped with the header
    `(size, (refCount << 1) | 1)`. The source leaves the fields
    uninitialised and its callers fill them in at once; the model takes
    those initial contents as `fields` and `data`.
  */
  function Alloc(h: Heap, size: nat, refCount: Int32, fields: seq<Option<Addr>>, data: seq<int>)
    : (r: (Heap, Option<Addr>))
    requires h.arena.chunkCount >= 1
    ensures r.1.None? <==> size > CHUNK_SIZE
    ensures r.1.None? ==> r.0 == h
    ensures r.1.Some? ==>
              && r.0.objs == h.objs[r.1.value := Obj(Live(size, EncodeCount(refCount)), fields, data)]
              && r.0.arena == RawAlloc(h.arena, size).0
              && r.1 == RawAlloc(h.arena, size).1
              && r.0.arena.chunkCount >= 1
    ensures HeapOk(h) && size >= HEADER_SIZE && r.1.Some? ==> r.1.value !in h.objs
  {
    var (arena', at) := RawAlloc(h.arena, size);
    match at
    case None => (h, None)
    case Some(p) =>
      RawAllocFresh(h, size);
      (Heap(h.objs[p := Obj(Live(size, EncodeCount(refCount)), fields, data)], arena'), Some(p))
  }

  /** A successful allocation in a well-formed heap yields an address no object has. */
  lemma RawAllocFresh(h: Heap, size: nat)
    requires h.arena.chunkCount >= 1
    requires RawAlloc(h.arena, size).1.Some?
    ensures HeapOk(h) ==> RawAlloc(h.arena, size).1.value !in h.objs
  {
  }

  /**
    Allocating an object with the header size, the declared field count
    and fields that point into the heap keeps the heap well-formed.
  */
  lemma AllocKeepsOk(h: Heap, size: nat, refCount: Int32, fields: seq<Option<Addr>>, data: seq<int>)
    requires HeapOk(h)
    requires HEADER_SIZE <= size
    requires |fields| == FieldCount(EncodeCount(refCount))
    requires FieldsIn(fields, h.objs)
    ensures HeapOk(Alloc(h, size, refCount, fields, data).0)
  {
  }
}

=== FILE: relocation.dfy ===
/**
  `gcMove`: relocating the object a slot refers to from the old heap into
  the new arena, leaving a forwarding address behind so that every object
  is copied at most once and cycles end.
*/
module Relocation {
  import opened Wrappers
  import opened Arena
  import opened Objects

  /**
    The heap as `gcCollect` sees it while it runs: the objects of the old
    chunks as they were when collection began, the forwarding addresses
    written over the headers of those already copied, the copies made so
    far, and the new arena they were carved from.
  */
  datatype GcState = GcState(
    fromSpace: map<Addr, Obj>,
    forwarding: map<Addr, Addr>,
    toSpace: map<Addr, Obj>,
    arena: Arena)

  /** The header of old object `a` as the collector reads it: its forwarding address once written. */
  function OldHeader(s: GcState, a: Addr): (r: Header)
    requires a in s.fromSpace
    ensures Sound(s) ==> (IsPointer(r) <==> a in s.forwarding)
    ensures Sound(s) && IsPointer(r) ==> r.target == s.forwarding[a]
    ensures !IsPointer(r) ==> r == s.fromSpace[a].header
  {
    if a in s.forwarding then Header.Forwarded(s.forwarding[a]) else s.fromSpace[a].header
  }

  /** The old objects not yet copied. */
  ghost function Unforwarded(s: GcState): set<Addr> {
    s.fromSpace.Keys - s.forwarding.Keys
  }

  /**
    What relocation itself relies on: the new arena is sound and every
    copy lies behind its bump pointer and is a well-formed live object; the
    old heap is well-formed, and only old objects are forwarded.
  */
  ghost predicate Sound(s: GcState) {
    && ArenaOk(s.arena)
    && ObjsOk(s.fromSpace)
    && s.forwarding.Keys <= s.fromSpace.Keys
    && forall p :: p in s.toSpace ==> s.arena.first <= p.chunk && Before(p, s.arena) && LiveOk(s.toSpace[p])
  }

  /** No two old objects forward to the same copy. */
  ghost predicate Injective(f: map<Addr, Addr>) {
    forall a, b :: a in f && b in f && a != b ==> f[a] != f[b]
  }

  /** The forwarding addresses are one-to-one and are exactly the copies. */
  ghost predicate Tidy(s: GcState) {
    Injective(s.forwarding) && s.toSpace.Keys == s.forwarding.Values
  }

  /**
    How a collection step may change the state: the old heap is not
    touched, a forwarding address once written never changes, copies are
    never removed and never rewritten, and the arena starts at the same
    chunk.
  */
  ghost predicate Evolves(s: GcState, r: GcState) {
    && r.fromSpace == s.fromSpace
    && (forall a :: a in s.forwarding ==> a in r.forwarding && r.forwarding[a] == s.forwarding[a])
    && (forall p :: p in s.toSpace ==> p in r.toSpace && r.toSpace[p] == s.toSpace[p])
    && r.arena.first == s.arena.first
  }

  /**
    `v'` is the image of the reference `v` under the renaming `f`: null for
    null. With the forwarding as `f`, it says that a slot that held `v` has
    been relocated to `v'`: a reference to an old object now holds that
    object's forwarding address.
  */
  predicate MapsTo(f: map<Addr, Addr>, v: Option<Addr>, v': Option<Addr>) {
    match v
    case None => v' == None
    case Some(a) => a in f && v' == Some(f[a])
  }

  /** `o'` is `o` with its references renamed by `f`: same header, same data, each field the image of the old one. */
  ghost predicate Image(f: map<Addr, Addr>, o: Obj, o': Obj) {
    && o'.header == o.header
    && o'.data == o.data
    && |o'.fields| == |o.fields|
    && forall j :: 0 <= j < |o.fields| ==> MapsTo(f, o.fields[j], o'.fields[j])
  }

  /** `t` is a finished copy of `o`: same header, same data, every field relocated. */
  ghost predicate Complete(s: GcState, t: Addr, o: Obj) {
    t in s.toSpace && Image(s.forwarding, o, s.toSpace[t])
  }

  /** Every object first forwarded by the step got a copy that did not exist before and is now complete. */
  ghost predicate FreshCopies(s: GcState, r: GcState) {
    forall a :: a in r.forwarding && a !in s.forwarding ==>
      && a in s.fromSpace
      && r.forwarding[a] !in s.toSpace
      && Complete(r, r.forwarding[a], s.fromSpace[a])
  }

  lemma EvolvesRefl(s: GcState)
    ensures Evolves(s, s)
  {
  }

  /** Steps never un-forward an object. */
  lemma EvolvesShrinks(s: GcState, r: GcState)
    requires Evolves(s, r)
    ensures Unforwarded(r) <= Unforwarded(s)
  {
  }

  /** Fresh copies accumulate over two steps. */
  lemma FreshCopiesTrans(s1: GcState, s2: GcState, s3: GcState)
    requires Evolves(s1, s2) && Evolves(s2, s3)
    requires FreshCopies(s1, s2) && FreshCopies(s2, s3)
    ensures FreshCopies(s1, s3)
  {
  }

  /**
    `gcMove`, main.cpp:91-97: allocate room for an old object in the new arena, copy it
    there whole (so the copy's header is the original's), and overwrite the
    original's header with the copy's address.
  */
  function CopyStep(s: GcState, a: Addr): (r: (GcState, Addr))
    requires Sound(s) && a in s.fromSpace && a !in s.forwarding
    ensures Sound(r.0) && Evolves(s, r.0)
    ensures RawAlloc(s.arena, s.fromSpace[a].header.size) == (r.0.arena, Some(r.1))
    ensures r.1 !in s.toSpace && r.0.toSpace == s.toSpace[r.1 := s.fromSpace[a]]
    ensures r.0.forwarding == s.forwarding[a := r.1]
    ensures Unforwarded(r.0) == Unforwarded(s) - {a}
  {
    var o := s.fromSpace[a];
    var (arena', at) := RawAlloc(s.arena, o.header.size);
    var r := GcState(s.fromSpace, s.forwarding[a := at.value], s.toSpace[at.value := o], arena');
    CopyStepSound(s, a, r, at.value);
    (r, at.value)
  }

  lemma CopyStepSound(s: GcState, a: Addr, r: GcState, c: Addr)
    requires Sound(s) && a in s.fromSpace && a !in s.forwarding
    requires RawAlloc(s.arena, s.fromSpace[a].header.size) == (r.arena, Some(c))
    requires r.fromSpace == s.fromSpace && r.forwarding == s.forwarding[a := c]
    requires r.toSpace == s.toSpace[c := s.fromSpace[a]]
    ensures c !in s.toSpace
    ensures Sound(r) && Evolves(s, r)
    ensures Unforwarded(r) == Unforwarded(s) - {a}
  {
  }

  /** Forwarding `a` to the brand-new copy `c` keeps the forwarding one-to-one and onto the copies. */
  lemma CopyStepTidy(s: GcState, a: Addr)
    requires Sound(s) && Tidy(s) && a in s.fromSpace && a !in s.forwarding
    ensures Tidy(CopyStep(s, a).0)
  {
  }

  /**
    `gcMove` applied to a slot holding `v`: the state afterwards and the
    value the slot then holds. A null slot is left alone; a forwarded
    object yields its forwarding address and nothing is allocated; any
    other object is copied by one allocation of its recorded size and
    forwarded, and then the copy's `refCount` field slots are relocated in
    order.
  */
  function Move(s: GcState, v: Option<Addr>): (r: (GcState, Option<Addr>))
    requires Sound(s) && RefIn(v, s.fromSpace)
    ensures Sound(r.0) && Evolves(s, r.0)
    ensures MapsTo(r.0.forwarding, v, r.1)
    ensures v.None? ==> r == (s, None)
    ensures v.Some? && v.value in s.forwarding ==> r == (s, Some(s.forwarding[v.value]))
    ensures v.Some? && v.value !in s.forwarding ==>
              && r.1 == RawAlloc(s.arena, s.fromSpace[v.value].header.size).1
              && r.1.value !in s.toSpace
    decreases Unforwarded(s), 0
  {
    match v
    case None =>
      EvolvesRefl(s);
      (s, None)
    case Some(a) =>
      var h := OldHeader(s, a);
      if IsPointer(h) then
        EvolvesRefl(s);
        (s, Some(h.target))
      else
        var (s1, c) := CopyStep(s, a);
        var (s2, relocated) := MoveSlots(s1, s1.toSpace[c].fields);
        var s3 := StoreFields(s2, c, relocated);
        (s3, Some(c))
  }

  /**
    Relocates the slots holding `vs`, first to last, as the loop of `gcMove`
    (main.cpp:100-101) does for the fields of a copy and the loop of
    `gcCollect` (main.cpp:109-110) does for the root stack: the state
    afterwards and the values the slots then hold.
  */
  function MoveSlots(s: GcState, vs: seq<Option<Addr>>): (r: (GcState, seq<Option<Addr>>))
    requires Sound(s) && forall j :: 0 <= j < |vs| ==> RefIn(vs[j], s.fromSpace)
    ensures Sound(r.0) && Evolves(s, r.0)
    ensures |r.1| == |vs| && forall j :: 0 <= j < |vs| ==> MapsTo(r.0.forwarding, vs[j], r.1[j])
    decreases Unforwarded(s), |vs|
  {
    if vs == [] then
      EvolvesRefl(s);
      (s, [])
    else
      var (s1, v) := Move(s, vs[0]);
      EvolvesShrinks(s, s1);
      var (s2, rest) := MoveSlots(s1, vs[1..]);
      SlotsDone(s, s1, s2, vs, v, rest);
      (s2, [v] + rest)
  }

  /** Relocating a non-empty run of slots relocates the first, then the rest from the state it leaves. */
  lemma SlotsUnfold(s: GcState, vs: seq<Option<Addr>>)
    requires Sound(s) && forall j :: 0 <= j < |vs| ==> RefIn(vs[j], s.fromSpace)
    requires |vs| > 0
    ensures var (s1, v) := Move(s, vs[0]);
            Sound(s1) && (forall j :: 0 <= j < |vs| - 1 ==> RefIn(vs[1..][j], s1.fromSpace))
            && MoveSlots(s, vs) == (MoveSlots(s1, vs[1..]).0, [v] + MoveSlots(s1, vs[1..]).1)
  {
  }

  lemma SlotsDone(s: GcState, s1: GcState, s2: GcState, vs: seq<Option<Addr>>, v: Option<Addr>, rest: seq<Option<Addr>>)
    requires |vs| > 0 && Evolves(s, s1) && Evolves(s1, s2)
    requires MapsTo(s1.forwarding, vs[0], v)
    requires |rest| == |vs| - 1 && forall j :: 0 <= j < |rest| ==> MapsTo(s2.forwarding, vs[1..][j], rest[j])
    ensures Evolves(s, s2)
    ensures forall j :: 0 <= j < |vs| ==> MapsTo(s2.forwarding, vs[j], ([v] + rest)[j])
  {
  }

  /**
    Writes the relocated slot values into the fields of the copy `c`,
    which `Move` has just made: nothing else is touched.
  */
  function StoreFields(s: GcState, c: Addr, fs: seq<Option<Addr>>): (r: GcState)
    requires Sound(s) && c in s.toSpace && |fs| == |s.toSpace[c].fields|
    ensures Sound(r)
    ensures r.fromSpace == s.fromSpace && r.forwarding == s.forwarding && r.arena == s.arena
    ensures r.toSpace == s.toSpace[c := s.toSpace[c].(fields := fs)]
  {
    s.(toSpace := s.toSpace[c := s.toSpace[c].(fields := fs)])
  }

  /**
    Relocating a slot keeps the forwarding one-to-one and onto the copies,
    and every object it forwards gets a brand-new copy that is complete
    when `gcMove` returns.
  */
  lemma {:induction false} MoveCopies(s: GcState, v: Option<Addr>)
    requires Sound(s) && Tidy(s) && RefIn(v, s.fromSpace)
    ensures Tidy(Move(s, v).0) && FreshCopies(s, Move(s, v).0)
    decreases Unforwarded(s), 0
  {
    match v
    case None =>
    case Some(a) =>
      if a !in s.forwarding {
        var (s1, c) := CopyStep(s, a);
        CopyStepTidy(s, a);
        var (s2, relocated) := MoveSlots(s1, s1.toSpace[c].fields);
        SlotsCopies(s1, s1.toSpace[c].fields);
        CopyCaseFresh(s, a, s1, c, s2, relocated);
        assert !IsPointer(OldHeader(s, a));
        assert Move(s, v).0 == StoreFields(s2, c, relocated);
      }
  }

  /** Relocating a run of slots keeps the forwarding tidy and leaves only complete, brand-new copies. */
  lemma {:induction false} SlotsCopies(s: GcState, vs: seq<Option<Addr>>)
    requires Sound(s) && Tidy(s) && forall j :: 0 <= j < |vs| ==> RefIn(vs[j], s.fromSpace)
    ensures Tidy(MoveSlots(s, vs).0) && FreshCopies(s, MoveSlots(s, vs).0)
    decreases Unforwarded(s), |vs|
  {
    if vs != [] {
      var (s1, v) := Move(s, vs[0]);
      MoveCopies(s, vs[0]);
      EvolvesShrinks(s, s1);
      var s2 := MoveSlots(s1, vs[1..]).0;
      SlotsCopies(s1, vs[1..]);
      FreshCopiesTrans(s, s1, s2);
    }
  }

  /**
    The copy case of `gcMove`: once the fields of the copy `c` of `a` are
    relocated and stored, `c` is complete, and so is every copy the field
    relocation made.
  */
  lemma CopyCaseFresh(s: GcState, a: Addr, s1: GcState, c: Addr, s2: GcState, relocated: seq<Option<Addr>>)
    requires Sound(s) && a in s.fromSpace && a !in s.forwarding
    requires CopyStep(s, a) == (s1, c)
    requires Evolves(s1, s2) && Tidy(s2) && FreshCopies(s1, s2)
    requires |relocated| == |s1.toSpace[c].fields|
    requires forall j :: 0 <= j < |relocated| ==> MapsTo(s2.forwarding, s1.toSpace[c].fields[j], relocated[j])
    ensures c in s2.toSpace
    ensures var s3 := s2.(toSpace := s2.toSpace[c := s2.toSpace[c].(fields := relocated)]);
            Tidy(s3) && FreshCopies(s, s3)
  {
    var s3 := s2.(toSpace := s2.toSpace[c := s2.toSpace[c].(fields := relocated)]);
    assert s3.toSpace.Keys == s2.toSpace.Keys;
    forall b | b in s3.forwarding && b !in s.forwarding
      ensures b in s.fromSpace && s3.forwarding[b] !in s.toSpace
      ensures Complete(s3, s3.forwarding[b], s.fromSpace[b])
    {
      if b != a {
        var t := s2.forwarding[b];
        assert Complete(s2, t, s.fromSpace[b]);
        assert t != c;
      }
    }
  }

  /**
    Relocation never strays outside a set of old objects that holds the
    slot's target and is closed under references: with what was forwarded
    before, everything forwarded afterwards lies in it.
  */
  lemma {:induction false} MoveWithin(s: GcState, v: Option<Addr>, S: set<Addr>)
    requires Sound(s) && RefIn(v, s.fromSpace)
    requires Closed(s.fromSpace, S) && s.forwarding.Keys <= S && (v.Some? ==> v.value in S)
    ensures Move(s, v).0.forwarding.Keys <= S
    decreases Unforwarded(s), 0
  {
    match v
    case None =>
    case Some(a) =>
      if a !in s.forwarding {
        var (s1, c) := CopyStep(s, a);
        SlotsWithin(s1, s1.toSpace[c].fields, S);
      }
  }

  lemma {:induction false} SlotsWithin(s: GcState, vs: seq<Option<Addr>>, S: set<Addr>)
    requires Sound(s) && forall j :: 0 <= j < |vs| ==> RefIn(vs[j], s.fromSpace)
    requires Closed(s.fromSpace, S) && s.forwarding.Keys <= S
    requires forall j :: 0 <= j < |vs| && vs[j].Some? ==> vs[j].value in S
    ensures MoveSlots(s, vs).0.forwarding.Keys <= S
    decreases Unforwarded(s), |vs|
  {
    if vs != [] {
      var s1 := Move(s, vs[0]).0;
      MoveWithin(s, vs[0], S);
      EvolvesShrinks(s, s1);
      SlotsWithin(s1, vs[1..], S);
    }
  }
}

=== FILE: root_stack.dfy ===
/**
  The root registry `referencesStack` and its `stackRef` handles. A handle
  is the position of its slot on the stack; the model keeps the slots'
  contents in `World.roots`, bottom of the stack first, which is the order
  `gcCollect` relocates them in.
*/
module RootStack {
  import opened Wrappers
  import opened Arena
  import opened Objects
  import opened Relocation
  import opened Collection

  /** `stackRef`'s constructor, main.cpp:22-25: a new `stackRef` pushes its slot, initialised to null; the handle is that slot's position. */
  function Acquire(w: World): (r: (World, nat))
    ensures r.0.heap == w.heap && |r.0.roots| == |w.roots| + 1
    ensures r.1 == |w.roots| && r.0.roots[r.1] == None
    ensures forall i :: 0 <= i < |w.roots| ==> r.0.roots[i] == w.roots[i]
  {
    (w.(roots := w.roots + [None]), |w.roots|)
  }

  /** `stackRef`'s destructor, main.cpp:27-29: destroying the innermost `stackRef` pops the top slot, whatever it holds. */
  function Release(w: World): (r: World)
    requires |w.roots| > 0
    ensures r.heap == w.heap && |r.roots| == |w.roots| - 1
    ensures forall i :: 0 <= i < |r.roots| ==> r.roots[i] == w.roots[i]
  {
    w.(roots := w.roots[..|w.roots| - 1])
  }

  /** Assigning through a handle (`ref.ref = ...`): that slot changes, no other. */
  function Store(w: World, i: nat, v: Option<Addr>): (r: World)
    requires i < |w.roots|
    ensures r.heap == w.heap && |r.roots| == |w.roots| && r.roots[i] == v
    ensures forall k :: 0 <= k < |w.roots| && k != i ==> r.roots[k] == w.roots[k]
  {
    w.(roots := w.roots[i := v])
  }

  /** A matched construct/destroy leaves the registry as it was, whatever was stored in the slot meanwhile. */
  lemma ReleaseAcquire(w: World, v: Option<Addr>)
    ensures Release(Acquire(w).0) == w
    ensures Release(Store(Acquire(w).0, Acquire(w).1, v)) == w
  {
  }

  /** Registering a root or storing a heap reference in one keeps the world well-formed. */
  lemma RegistryKeepsOk(w: World, i: nat, v: Option<Addr>)
    requires WorldOk(w)
    ensures WorldOk(Acquire(w).0)
    ensures i < |w.roots| && RefIn(v, w.heap.objs) ==> WorldOk(Store(w, i, v))
    ensures |w.roots| > 0 ==> WorldOk(Release(w))
  {
  }

  /** Relocating a null slot after others changes nothing but appends a null. */
  lemma {:induction false} SlotsNullLast(s: GcState, vs: seq<Option<Addr>>)
    requires Sound(s) && forall j :: 0 <= j < |vs| ==> RefIn(vs[j], s.fromSpace)
    ensures MoveSlots(s, vs + [None]).0 == MoveSlots(s, vs).0
    ensures MoveSlots(s, vs + [None]).1 == MoveSlots(s, vs).1 + [None]
    decreases |vs|
  {
    if vs == [] {
      assert vs + [None] == [None] && [None][1..] == vs;
    } else {
      var t := vs + [None];
      var (s1, v) := Move(s, vs[0]);
      assert t[0] == vs[0];
      assert t[1..] == vs[1..] + [None];
      SlotsNullLast(s1, vs[1..]);
      SlotsUnfold(s, vs);
      SlotsUnfold(s, t);
      var rest := MoveSlots(s1, vs[1..]).1;
      assert [v] + (rest + [None]) == ([v] + rest) + [None];
    }
  }

  /** A fresh, still-null `stackRef` changes nothing a collection does: it only comes back null. */
  lemma CollectFreshRoot(w: World)
    requires WorldOk(w)
    ensures WorldOk(Acquire(w).0)
    ensures Collect(Acquire(w).0) == Acquire(Collect(w)).0
  {
    RegistryKeepsOk(w, 0, None);
    SlotsNullLast(Start(w.heap), w.roots);
  }
}

=== FILE: search_tree.dfy ===
/**
  The binary search tree client (`stAdd`, `stFind`, `stCut`). A node is an
  object with two reference fields, left then right, and its key as data.
  Larger keys are filed to the LEFT: a search descends into the left field
  when the node's key is smaller than the one sought. The recursion depth
  bound `d` is ghost: it only says that the search ends, which the source
  needs too (a search whose path cycles never returns).
*/
module SearchTree {
  import opened Wrappers
  import opened HeaderWord
  import opened Arena
  import opened Objects
  import opened Relocation
  import opened Collection

  /** `sizeof(searchTree)` on a 64-bit target: header, two pointers and an int key, padded to 8 bytes. */
  const NODE_SIZE: nat := 32
  /** `searchTree::refCount`. */
  const NODE_REFS: Int32 := 2

  predicate IsNode(o: Obj) {
    |o.fields| == 2 && |o.data| >= 1
  }

  function Key(o: Obj): int
    requires IsNode(o)
  {
    o.data[0]
  }

  /** The comparison of `stAdd`, `stFind` and `stCut` (main.cpp:141, 152, 176): the field a search for `key` descends into, 0 (left) when the node's key is smaller. */
  function Child(o: Obj, key: int): (r: nat)
    requires IsNode(o)
    ensures r < NODE_REFS
    ensures r == 0 <==> key > Key(o)
  {
    if Key(o) < key then 0 else 1
  }

  /** A reference slot the client writes through: a root or a field of an object. */
  datatype Slot = Root(index: nat) | Field(node: Addr, index: nat)

  predicate SlotOk(w: World, sl: Slot) {
    match sl
    case Root(i) => i < |w.roots|
    case Field(a, j) => a in w.heap.objs && j < |w.heap.objs[a].fields|
  }

  function Get(w: World, sl: Slot): Option<Addr>
    requires SlotOk(w, sl)
  {
    match sl
    case Root(i) => w.roots[i]
    case Field(a, j) => w.heap.objs[a].fields[j]
  }

  /** Assigning `v` through the slot: exactly that slot changes, and no object gains or loses anything else. */
  function Set(w: World, sl: Slot, v: Option<Addr>): (r: World)
    requires SlotOk(w, sl)
    ensures Keeps(w, r) && r.heap.objs.Keys == w.heap.objs.Keys && r.heap.arena == w.heap.arena
    ensures Get(r, sl) == v
    ensures forall sl' :: SlotOk(w, sl') && sl' != sl ==> Get(r, sl') == Get(w, sl')
  {
    match sl
    case Root(i) => w.(roots := w.roots[i := v])
    case Field(a, j) =>
      var o := w.heap.objs[a];
      w.(heap := w.heap.(objs := w.heap.objs[a := o.(fields := o.fields[j := v])]))
  }

  /** The client never removes an object, never changes a header or a key, and never adds or drops a slot. */
  ghost predicate Keeps(w: World, r: World) {
    && |r.roots| == |w.roots|
    && forall a :: a in w.heap.objs ==>
         && a in r.heap.objs
         && r.heap.objs[a].header == w.heap.objs[a].header
         && r.heap.objs[a].data == w.heap.objs[a].data
         && |r.heap.objs[a].fields| == |w.heap.objs[a].fields|
  }

  lemma KeepsSlot(w: World, r: World, sl: Slot)
    requires Keeps(w, r) && SlotOk(w, sl)
    ensures SlotOk(r, sl)
  {
  }

  lemma KeepsTrans(w1: World, w2: World, w3: World)
    requires Keeps(w1, w2) && Keeps(w2, w3)
    ensures Keeps(w1, w3)
  {
  }

  /** The search for `key` from `v` meets only nodes and ends within `d` descents. */
  ghost predicate Searchable(m: map<Addr, Obj>, v: Option<Addr>, key: int, d: nat)
    decreases d
  {
    v.Some? ==>
      && v.value in m
      && IsNode(m[v.value])
      && (Key(m[v.value]) != key ==>
            d > 0 && Searchable(m, m[v.value].fields[Child(m[v.value], key)], key, d - 1))
  }

  /** `stFind`, main.cpp:149-156: the node holding `key` on the search path, or null when the path ends first. */
  function Find(m: map<Addr, Obj>, v: Option<Addr>, key: int, ghost d: nat): (r: Option<Addr>)
    requires Searchable(m, v, key, d)
    ensures r.Some? ==> r.value in m && IsNode(m[r.value]) && Key(m[r.value]) == key
    decreases d
  {
    if v.None? || Key(m[v.value]) == key then v
    else Find(m, m[v.value].fields[Child(m[v.value], key)], key, d - 1)
  }

  /**
    The slot at which the search for `key` starting from `sl` stops: it
    holds exactly what `Find` returns, the node holding `key` or null.
    It is `target` in the innermost call of `stAdd` and `stCut`.
  */
  function EndSlot(w: World, sl: Slot, key: int, ghost d: nat): (r: Slot)
    requires SlotOk(w, sl) && Searchable(w.heap.objs, Get(w, sl), key, d)
    ensures SlotOk(w, r) && Get(w, r) == Find(w.heap.objs, Get(w, sl), key, d)
    decreases d
  {
    var v := Get(w, sl);
    if v.None? || Key(w.heap.objs[v.value]) == key then sl
    else EndSlot(w, Field(v.value, Child(w.heap.objs[v.value], key)), key, d - 1)
  }

  /**
    `stAdd`, main.cpp:130-145: insert `key` below the slot. Searching down from it, a
    node holding `key` ends the insertion with nothing changed; otherwise
    the null slot the search ends at receives a new node (`Plant`), and
    nothing else changes.
  */
  function Add(w: World, sl: Slot, key: int, ghost d: nat): (r: World)
    requires WorldOk(w) && SlotOk(w, sl) && Searchable(w.heap.objs, Get(w, sl), key, d)
    ensures WorldOk(r) && Keeps(w, r) && SlotOk(r, sl)
    ensures forall sl' :: SlotOk(w, sl') && Get(w, sl').Some? ==> SlotOk(r, sl') && Get(r, sl') == Get(w, sl')
    ensures Find(w.heap.objs, Get(w, sl), key, d).Some? ==> r == w
    ensures Find(w.heap.objs, Get(w, sl), key, d).None? ==> r == Plant(w, EndSlot(w, sl, key, d), key)
    decreases d
  {
    var v := Get(w, sl);
    if v.None? then Plant(w, sl, key)
    else if Key(w.heap.objs[v.value]) == key then w
    else Add(w, Field(v.value, Child(w.heap.objs[v.value], key)), key, d - 1)
  }

  /**
    `stAdd`, main.cpp:131-137: allocate a node, set both children to null and the key
    to `key`, and store it in the null slot. The node is new, and no other
    slot changes.
  */
  function Plant(w: World, sl: Slot, key: int): (r: World)
    requires WorldOk(w) && SlotOk(w, sl) && Get(w, sl) == None
    ensures WorldOk(r) && Keeps(w, r) && SlotOk(r, sl)
    ensures var c := Get(r, sl);
            && c.Some? && c.value !in w.heap.objs && c.value in r.heap.objs
            && r.heap.objs[c.value] == Obj(Live(NODE_SIZE, EncodeCount(NODE_REFS)), [None, None], [key])
    ensures forall sl' :: SlotOk(w, sl') && sl' != sl ==> SlotOk(r, sl') && Get(r, sl') == Get(w, sl')
    ensures (r.heap.arena, Get(r, sl)) == RawAlloc(w.heap.arena, NODE_SIZE)
    ensures r.heap.objs.Keys == w.heap.objs.Keys + {Get(r, sl).value}
  {
    var (h', at) := Alloc(w.heap, NODE_SIZE, NODE_REFS, [None, None], [key]);
    AllocKeepsOk(w.heap, NODE_SIZE, NODE_REFS, [None, None], [key]);
    FieldCountEncode(NODE_REFS);
    var w' := w.(heap := h');
    assert Keeps(w, w');
    KeepsSlot(w, w', sl);
    var r := Set(w', sl, at);
    SetKeepsOk(w', sl, at);
    KeepsTrans(w, w', r);
    r
  }

  /** Writing null or a heap reference into a slot keeps the world well-formed. */
  lemma SetKeepsOk(w: World, sl: Slot, v: Option<Addr>)
    requires WorldOk(w) && SlotOk(w, sl) && RefIn(v, w.heap.objs)
    ensures WorldOk(Set(w, sl, v))
  {
  }

  /**
    `stCut`, main.cpp:171-180: cut the subtree holding `key` off below the slot: the
    slot the search for `key` ends at, holding that node or null, is set
    to null, and no other slot changes.
  */
  function Cut(w: World, sl: Slot, key: int, ghost d: nat): (r: World)
    requires WorldOk(w) && SlotOk(w, sl) && Searchable(w.heap.objs, Get(w, sl), key, d)
    ensures WorldOk(r) && Keeps(w, r) && r.heap.objs.Keys == w.heap.objs.Keys && SlotOk(r, sl)
    ensures forall sl' :: SlotOk(w, sl') ==> SlotOk(r, sl') && (Get(r, sl') == Get(w, sl') || Get(r, sl') == None)
    ensures r == Set(w, EndSlot(w, sl, key, d), None)
    decreases d
  {
    var v := Get(w, sl);
    if v.None? || Key(w.heap.objs[v.value]) == key then
      SetKeepsOk(w, sl, None);
      Set(w, sl, None)
    else
      var child := Field(v.value, Child(w.heap.objs[v.value], key));
      Cut(w, child, key, d - 1)
  }

  /** A search from a slot holding a node without `key` goes on from the node's child slot. */
  lemma Descend(r: World, sl: Slot, a: Addr, key: int, d: nat)
    requires SlotOk(r, sl) && Get(r, sl) == Some(a) && a in r.heap.objs && IsNode(r.heap.objs[a])
    requires Key(r.heap.objs[a]) != key && d > 0
    requires Searchable(r.heap.objs, Get(r, Field(a, Child(r.heap.objs[a], key))), key, d - 1)
    ensures Searchable(r.heap.objs, Get(r, sl), key, d)
    ensures Find(r.heap.objs, Get(r, sl), key, d) == Find(r.heap.objs, Get(r, Field(a, Child(r.heap.objs[a], key))), key, d - 1)
  {
  }

  /** A search from the slot a node was just planted in finds that node. */
  lemma PlantFinds(w: World, sl: Slot, key: int, d: nat)
    requires WorldOk(w) && SlotOk(w, sl) && Get(w, sl) == None
    ensures var r := Plant(w, sl, key);
            Searchable(r.heap.objs, Get(r, sl), key, d) && Find(r.heap.objs, Get(r, sl), key, d).Some?
  {
  }

  /** After inserting `key` below a slot, searching from that slot finds a node holding `key`. */
  lemma {:induction false} AddFinds(w: World, sl: Slot, key: int, d: nat)
    requires WorldOk(w) && SlotOk(w, sl) && Searchable(w.heap.objs, Get(w, sl), key, d)
    ensures var r := Add(w, sl, key, d);
            Searchable(r.heap.objs, Get(r, sl), key, d) && Find(r.heap.objs, Get(r, sl), key, d).Some?
    decreases d
  {
    var v := Get(w, sl);
    if v.None? {
      PlantFinds(w, sl, key, d);
    } else if Key(w.heap.objs[v.value]) != key {
      var a := v.value;
      var child := Field(a, Child(w.heap.objs[a], key));
      var r := Add(w, child, key, d - 1);
      AddFinds(w, child, key, d - 1);
      assert Add(w, sl, key, d) == r;
      Descend(r, sl, a, key, d);
    }
  }

  /** After cutting `key` below a slot, searching from that slot finds nothing. */
  lemma {:induction false} CutRemoves(w: World, sl: Slot, key: int, d: nat)
    requires WorldOk(w) && SlotOk(w, sl) && Searchable(w.heap.objs, Get(w, sl), key, d)
    ensures var r := Cut(w, sl, key, d);
            Searchable(r.heap.objs, Get(r, sl), key, d) && Find(r.heap.objs, Get(r, sl), key, d) == None
    decreases d
  {
    var v := Get(w, sl);
    if v.Some? && Key(w.heap.objs[v.value]) != key {
      var a := v.value;
      var child := Field(a, Child(w.heap.objs[a], key));
      var r := Cut(w, child, key, d - 1);
      CutRemoves(w, child, key, d - 1);
      assert Cut(w, sl, key, d) == r;
      if Get(r, sl).Some? {
        Descend(r, sl, a, key, d);
      }
    }
  }

  /** `lo < k`, where an absent bound means no bound. */
  predicate Above(lo: Option<int>, k: int) {
    lo.None? || lo.value < k
  }

  /** `k < hi`, where an absent bound means no bound. */
  predicate Below(hi: Option<int>, k: int) {
    hi.None? || k < hi.value
  }

  /**
    The tree below `v` is ordered the way `stAdd` files keys: every key lies
    strictly between `lo` and `hi`, the left subtree holds only larger keys
    and the right subtree only smaller ones, and no path is longer than `d`.
  */
  ghost predicate Ordered(m: map<Addr, Obj>, v: Option<Addr>, lo: Option<int>, hi: Option<int>, d: nat)
    decreases d
  {
    v.Some? ==>
      && v.value in m
      && IsNode(m[v.value])
      && Above(lo, Key(m[v.value])) && Below(hi, Key(m[v.value]))
      && d > 0
      && Ordered(m, m[v.value].fields[0], Some(Key(m[v.value])), hi, d - 1)
      && Ordered(m, m[v.value].fields[1], lo, Some(Key(m[v.value])), d - 1)
  }

  /** Some node of the tree below `v`, at most `d` levels down, holds `key`. */
  ghost predicate Holds(m: map<Addr, Obj>, v: Option<Addr>, key: int, d: nat)
    decreases d
  {
    && v.Some?
    && v.value in m
    && IsNode(m[v.value])
    && (|| Key(m[v.value]) == key
        || (d > 0 && (Holds(m, m[v.value].fields[0], key, d - 1) || Holds(m, m[v.value].fields[1], key, d - 1))))
  }

  /** Every key held in an ordered tree lies within the tree's bounds. */
  lemma {:induction false} HoldsInRange(m: map<Addr, Obj>, v: Option<Addr>, key: int, lo: Option<int>, hi: Option<int>, d: nat)
    requires Ordered(m, v, lo, hi, d) && Holds(m, v, key, d)
    ensures Above(lo, key) && Below(hi, key)
    decreases d
  {
    var o := m[v.value];
    if Key(o) != key {
      if Holds(m, o.fields[0], key, d - 1) {
        HoldsInRange(m, o.fields[0], key, Some(Key(o)), hi, d - 1);
      } else {
        HoldsInRange(m, o.fields[1], key, lo, Some(Key(o)), d - 1);
      }
    }
  }

  /**
    On an ordered tree the search is complete: it always ends, and it finds
    a node exactly when some node of the tree holds the key.
  */
  lemma {:induction false} FindComplete(m: map<Addr, Obj>, v: Option<Addr>, key: int, lo: Option<int>, hi: Option<int>, d: nat)
    requires Ordered(m, v, lo, hi, d)
    ensures Searchable(m, v, key, d)
    ensures Find(m, v, key, d).Some? <==> Holds(m, v, key, d)
    decreases d
  {
    if v.Some? {
      var o := m[v.value];
      if Key(o) < key {
        FindComplete(m, o.fields[0], key, Some(Key(o)), hi, d - 1);
        if Holds(m, o.fields[1], key, d - 1) {
          HoldsInRange(m, o.fields[1], key, lo, Some(Key(o)), d - 1);
        }
      } else if Key(o) > key {
        FindComplete(m, o.fields[1], key, lo, Some(Key(o)), d - 1);
        if Holds(m, o.fields[0], key, d - 1) {
          HoldsInRange(m, o.fields[0], key, Some(Key(o)), hi, d - 1);
        }
      }
    }
  }

  /**
    A search commutes with renaming the heap: if every object of `f`'s
    domain is mapped to an image of itself in `m'`, then searching from the
    image of `v` finds the image of what searching from `v` finds.
  */
  lemma {:induction false} FindImage(m: map<Addr, Obj>, m': map<Addr, Obj>, f: map<Addr, Addr>,
                                     v: Option<Addr>, v': Option<Addr>, key: int, d: nat)
    requires Closed(m, f.Keys) && f.Keys <= m.Keys
    requires forall a :: a in f ==> f[a] in m' && Image(f, m[a], m'[f[a]])
    requires MapsTo(f, v, v') && Searchable(m, v, key, d)
    ensures Searchable(m', v', key, d) && MapsTo(f, Find(m, v, key, d), Find(m', v', key, d))
    decreases d
  {
    if v.Some? {
      var a := v.value;
      assert Image(f, m[a], m'[f[a]]);
      if Key(m[a]) != key {
        var j := Child(m[a], key);
        assert MapsTo(f, m[a].fields[j], m'[f[a]].fields[j]);
        FindImage(m, m', f, m[a].fields[j], m'[f[a]].fields[j], key, d - 1);
      }
    }
  }

  /**
    The tree survives collection: searching from a root afterwards finds
    the new address of the node the same search found before (null if it
    found null), and that node's subtree is carried over whole, as the
    isomorphism of `CollectIsomorphic` states.
  */
  lemma FindCollect(w: World, i: nat, key: int, d: nat)
    requires WorldOk(w) && i < |w.roots| && Searchable(w.heap.objs, w.roots[i], key, d)
    ensures Searchable(Collect(w).heap.objs, Collect(w).roots[i], key, d)
    ensures MapsTo(Forwarding(w), Find(w.heap.objs, w.roots[i], key, d),
                   Find(Collect(w).heap.objs, Collect(w).roots[i], key, d))
  {
    CollectReachable(w);
    CollectIsomorphic(w);
    FindImage(w.heap.objs, Collect(w).heap.objs, Forwarding(w), w.roots[i], Collect(w).roots[i], key, d);
  }
}

=== FILE: wrappers.dfy ===
/** The Some/None datatype standing in for a pointer that may be null. */
module Wrappers {

  datatype Option<+T> = None | Some(value: T)

}
